=== FILE: README.md ===
# Kitchen assistant: a Dafny model of its client-side logic

This project models the application logic of a React kitchen assistant. The
assistant generates recipes and meal plans, shows dish images, lets the user
chat with a cooking assistant and a study helper, and keeps a small
browser-local user directory. The model covers the logic that decides what
the user sees, and leaves the remote model calls out:

- **Chat** (`chat.dfy`). This is the streaming chat transcript of the cooking
  assistant and the study helper. It is modelled once and parameterised by
  the persona's greeting and apology. It includes the submit guard, the user
  message, the streamed placeholder that grows chunk by chunk, and the
  apology on failure. `HandleSubmit` follows the handler statement by
  statement. Its `for await` loop is `StreamChunks`. It is proved equal to
  the atomic `Submit`.
- **Auth** (`auth.dfy`). This is the user directory of the auth context:
  start-up seeding and session restore, login, signup, logout and profile
  rename. The browser store is a sequence of users plus an optional
  current-user id.
- **SignupPage** and **ProfilePage** (`signup_page.dfy`, `profile_page.dfy`).
  These are the two form handlers that drive the directory. They cover the
  six-character password gate, the unchanged-name short cut, and the error
  and success banners.
- **DataUrl** (`data_url.dfy`). This is the `data:` URL the service builds
  for an image, and the dish visualizer's parser that takes it apart again.
  The parser splits the URL on `,`, `:` and `;` exactly as JavaScript
  `split` does.
- **GeminiService** (`gemini_service.dfy`). These are the response checks
  the service applies to parsed model responses (JavaScript truthiness of
  required fields), the URLs it builds, and the scan of `editImage` for the
  first inline image part.
- **RecipeGenerator**, **MealPlanner** and **DishVisualizer**
  (`recipe_generator.dfy`, `meal_planner.dfy`, `dish_visualizer.dfy`).
  These are the handler state machines of the three views: guards, resets,
  requests sent, and the state after success or failure.
- **JsStrings** and **Wrappers** are shared foundations.
  - JsStrings gives `trim`, `startsWith`, `indexOf` and one-character
    `split`/`join` their ECMAScript meaning.
  - Wrappers holds `Option` and `Result`.

Each asynchronous handler is modelled as one atomic step. The remote
outcome is a parameter: the parsed response, the image bytes, or the stream
of chunks. Where a handler resets state before its `await`, a `Begin`
function names that intermediate state.

On a failed chat turn:

- A chat stream that fails mid-way keeps the partial reply. The apology
  does not replace the placeholder; it is appended as a new model message.
- A stream that fails before any chunk leaves an empty reply, then the
  apology (see `Chat.Submit`).
- A failed stream that never opened adds only the apology.

## Model

| member | source | states |
|---|---|---|
| JsStrings.Trim | components/CookingAssistant.tsx:50 | The trimmed input is a contiguous slice with only white space removed on either side. It is empty exactly when the input is blank, which is what every `!x.trim()` guard tests. |
| JsStrings.Or | components/SignupPage.tsx:27 | `m \|\| fallback` on strings: the fallback is chosen exactly when `m` is empty. |
| JsStrings.IndexOf | components/DishVisualizer.tsx:11 | Finds the first occurrence of the separator, or reports that there is none. |
| JsStrings.Split | components/DishVisualizer.tsx:11-12 | `split` always yields at least one piece, and no piece contains the separator. |
| JsStrings.SplitJoin | components/DishVisualizer.tsx:11-12 | Splitting a join of separator-free pieces gives the pieces back. |
| JsStrings.JoinSplit | components/DishVisualizer.tsx:11-12 | Joining the pieces of a split, with the same separator, gives the original string. |
| JsStrings.SplitAppend | components/RecipeGenerator.tsx:36 | Joining two texts with the separator concatenates their pieces. |
| Chat.Submit | components/CookingAssistant.tsx:48-77 | A blocked submit changes nothing. An accepted one clears the input, ends loading and appends the user message. It then appends the full reply on success, only the apology when the stream never opened, and the partial reply followed by the apology when the stream broke. |
| Chat.StreamChunks | components/CookingAssistant.tsx:60-70 | The `for await` loop, with its running reply, leaves the transcript exactly as the chunk-by-chunk reference definition describes it. |
| Chat.HandleSubmit | components/CookingAssistant.tsx:48-77 | The handler, written statement by statement around that loop, computes exactly the atomic transcript step. |
| Chat.ApplyChunk | components/CookingAssistant.tsx:65-69 | A chunk rewrites only the last message's text, and every earlier message is kept. |
| Chat.StreamedShape | components/CookingAssistant.tsx:60-69 | After k chunks, the placeholder holds the concatenation of the first k chunks, and nothing before it changed. |
| Chat.ConcatAppend | components/CookingAssistant.tsx:64 | The running reply built by `+=` distributes over splitting the chunk sequence. |
| Chat.ChunkBoundariesIrrelevant | components/CookingAssistant.tsx:63-70 | The transcript does not depend on where the stream cuts its chunks. |
| Chat.FailureNeverBlocks | components/CookingAssistant.tsx:74-76 | Whatever the backend does, loading ends, so the next non-blank input is accepted. |
| Chat.TranscriptInvariant | components/CookingAssistant.tsx:38-73 | Opening leaves a transcript in which every user message is immediately followed by a model message, and every turn keeps it that way. Such a transcript always ends with a model message, so no user message is left unanswered. |
| Chat.OpenResets | components/CookingAssistant.tsx:24-39 | Opening, or rebinding to a new recipe, replaces the transcript with the greeting alone. It does so regardless of earlier history and is idempotent. |
| Chat.InitialIdle | components/CookingAssistant.tsx:18-21 | Before its effect has run the view has no session, so a submit does nothing. Opening it gives a session and a transcript that keeps the invariant. |
| Chat.CookingGreetingNamesRecipe | components/CookingAssistant.tsx:38 | The cooking greeting contains the recipe name between double quotes. |
| Chat.StudyHelperTexts | components/StudyHelper.tsx:27-61 | The study helper opens with its own greeting. A failed turn ends with its own apology, after the unchanged history and the user message. |
| Auth.FirstIndex | contexts/AuthContext.tsx:122 | `findIndex`: the position found matches and no earlier one does, or nothing matches. |
| Auth.Init | contexts/AuthContext.tsx:29-55 | An empty store is seeded with the demo user and a non-empty store is kept. A session is restored exactly when a non-empty stored id names a stored user. The restored user is the first stored user with that id, with the password removed. |
| Auth.Login | contexts/AuthContext.tsx:57-76 | Login succeeds exactly when some user has both the email and the password. The first such user becomes current and its id is stored. Otherwise it rejects with the credentials message and nothing changes. |
| Auth.Signup | contexts/AuthContext.tsx:78-108 | Signup rejects exactly when the email is taken, and then nothing changes. Otherwise it appends the new user and logs them in without the password. |
| Auth.Logout | contexts/AuthContext.tsx:110-113 | Logout clears the current user and the stored id and keeps every user. |
| Auth.UpdateProfile | contexts/AuthContext.tsx:115-135 | Renaming succeeds exactly when someone is logged in and the current id is stored. It rejects when logged out or when the current id is not stored, and then nothing changes. Otherwise it renames the first stored user with that id and the current user, and changes nothing else. |
| Auth.EmailsStayUnique | contexts/AuthContext.tsx:87-105 | Start-up and every operation preserve email uniqueness. |
| Auth.InitSessionValid | contexts/AuthContext.tsx:42-50 | A restored session is a stored user without its password, and its id is the stored id. |
| Auth.SessionStaysValid | contexts/AuthContext.tsx:57-113 | Login, signup and logout keep the session consistent with the store, whatever the ids. |
| Auth.SignupKeepsIdsUnique | contexts/AuthContext.tsx:93-100 | Signing up with an id no stored user has keeps ids unique. |
| Auth.UpdateProfileSessionValid | contexts/AuthContext.tsx:121-128 | With unique ids, renaming keeps the session consistent with the store and keeps ids unique. |
| SignupPage.Settle | components/SignupPage.tsx:26-30 | Settling ends loading. A rejection shows its message, or the fallback for an empty message. Success keeps the banner. |
| SignupPage.Submit | components/SignupPage.tsx:16-31 | The too-short error appears exactly when the password has fewer than 6 characters, and then the directory is untouched. Otherwise the directory's signup decides, and the banner is empty exactly on success. |
| SignupPage.GateBoundary | components/SignupPage.tsx:18-20 | A 6-character password reaches signup and logs in with a free email. A 5-character one leaves the directory unchanged. |
| ProfilePage.InitialForm | components/ProfilePage.tsx:6 | The field starts as the current user's name, or empty when logged out. |
| ProfilePage.Settle | components/ProfilePage.tsx:21-28 | Settling ends loading. Success shows the success banner. A rejection shows its message, or the fallback. |
| ProfilePage.Submit | components/ProfilePage.tsx:11-29 | An unchanged name does nothing. Otherwise both banners are cleared and the directory's rename decides between the success banner and the rejection message. |
| ProfilePage.LoggedOutSubmitRejected | components/ProfilePage.tsx:13-25 | Submitting while logged out shows the directory's refusal and changes nothing in it. |
| ProfilePage.SavedNameDisablesSave | components/ProfilePage.tsx:91 | After a successful save the field equals the new current name, so Save is disabled again. |
| DataUrl.InlineHeaderHasColon | components/DishVisualizer.tsx:12 | On the inline branch the header always has a `:`, so the piece the parser reads after it exists. |
| DataUrl.Parse | components/DishVisualizer.tsx:6-13 | The inline branch is taken exactly for `data:image/` URLs. The payload is present exactly when there is a comma, and it is comma-free. The MIME type contains none of the three separators. |
| DataUrl.BuildShape | services/geminiService.ts:339 | A built URL is a `data:` header, a comma and the payload. With an image MIME type, it takes the parser's inline branch. |
| DataUrl.HeaderYieldsMime | components/DishVisualizer.tsx:12 | The header's `:` and `;` splits give back the MIME type the builder wrote. |
| DataUrl.ParseBuild | components/DishVisualizer.tsx:9-13 | Parsing a built URL recovers the MIME type and the payload up to its first comma. |
| DataUrl.RoundTrip | services/geminiService.ts:339 | Parsing a built URL with a comma-free payload gives back exactly the payload and the MIME type. |
| DataUrl.SecondCommaDropped | components/DishVisualizer.tsx:11-13 | Everything from the payload's first comma on is dropped by the parser. |
| GeminiService.AllTruthy | services/geminiService.ts:187-191 | The chained `!d.f1 \|\| !d.f2 \|\| ...` test, evaluated left to right and stopping at the first falsy field, throws on a nullish value and otherwise passes exactly when every field is truthy. |
| GeminiService.Check | services/geminiService.ts:187-195 | A response passes unchanged exactly when it is a non-nullish value with every required field truthy. Otherwise a non-null response fails with the given message, a nullish one with the TypeError that reading a property of `null` throws, and a failed call's error is passed on. |
| GeminiService.GenerateRecipe | services/geminiService.ts:184-195 | A recipe is accepted unchanged exactly when name, ingredients and instructions are all truthy. Otherwise a non-null response raises the invalid-recipe message, a `null` response throws a TypeError, and a failed call's error propagates. |
| GeminiService.GenerateMealPlan | services/geminiService.ts:227-234 | A plan is accepted unchanged exactly when title and daily plans are truthy. Otherwise a non-null response raises the invalid-plan message, a `null` response throws a TypeError, and a failed call's error propagates. |
| GeminiService.RecipeCheckIsTruthiness | services/geminiService.ts:187-193 | The check is truthiness and not shape: an empty name is refused, while empty ingredient and instruction lists pass. |
| GeminiService.UncheckedCallsAcceptMore | services/geminiService.ts:307-309 | The recipe-from-image and shopping-list calls return the parsed value unchecked. They accept strictly more than the checked calls and agree wherever those accept. |
| GeminiService.OtherRequirementsText | services/geminiService.ts:210 | The prompt shows "None" for empty other requests, and the text itself otherwise. |
| GeminiService.GenerateImage | services/geminiService.ts:255-257 | The image bytes come back as a JPEG data URL. A failure propagates. |
| GeminiService.GeneratedImageParses | services/geminiService.ts:257 | A generated image URL parses inline as `image/jpeg` and, being comma-free, returns its bytes. |
| GeminiService.IdentifyIngredients | services/geminiService.ts:280 | The recognised ingredients are the model's text, trimmed. A failure propagates. |
| GeminiService.FirstInlineIndex | services/geminiService.ts:335-341 | The scan over the parts finds the first part with inline data, or reports that no part has any. |
| GeminiService.EditImage | services/geminiService.ts:335-342 | The result is the data URL of the first part with inline data, so it always starts with `data:`. "No image" is raised exactly when no part has any, and a failed call propagates. |
| RecipeGenerator.MergeKeepsBoth | components/RecipeGenerator.tsx:36 | Merging keeps the old text as a prefix and the new as a suffix, with a comma and a space between only when the old text is non-empty. The comma-separated entries of both survive, in order. |
| RecipeGenerator.AnalyzeImage | components/RecipeGenerator.tsx:26-47 | Without a file nothing happens. Otherwise the trimmed recognised text is merged into the field, or the field is kept and the analysis error shown. The busy flag ends either way. |
| RecipeGenerator.SubmitRequest | components/RecipeGenerator.tsx:51-63 | A request is sent exactly when the ingredients are non-blank and nothing is loading. It carries the trimmed ingredients and the three selections. |
| RecipeGenerator.Submit | components/RecipeGenerator.tsx:49-74 | An accepted submit closes the chat and ends loading. It holds a recipe exactly when the response passes the recipe check, and shows the error exactly otherwise. Nothing else changes. |
| RecipeGenerator.SubmitClosesChat | components/RecipeGenerator.tsx:163-166 | The assistant is hidden during and after a new request. It can be reopened exactly when a recipe arrived. |
| RecipeGenerator.InitialIdle | components/RecipeGenerator.tsx:13-22 | The freshly mounted view sends no request and cannot show the assistant, even after the button. |
| MealPlanner.PlanRequest | components/MealPlanner.tsx:40-51 | A request is sent exactly when nothing is loading. It carries the trimmed other requests. |
| MealPlanner.PromptRequirements | services/geminiService.ts:205-210 | The prompt's "Other requirements" line reads "None" exactly when the text box held only white space, and otherwise the trimmed text. |
| MealPlanner.SubmitPlan | components/MealPlanner.tsx:38-62 | An accepted submit drops the old shopping list. It holds a plan exactly when the response passes the plan check, and shows the error otherwise. |
| MealPlanner.ListRequest | components/MealPlanner.tsx:22 | A shopping list is requested exactly when a plan exists and no list request is in flight. |
| MealPlanner.SubmitList | components/MealPlanner.tsx:21-35 | The list request keeps the plan. It stores the list on success, and keeps the old list and shows the error on failure. |
| MealPlanner.FailedPlanBlocksList | components/MealPlanner.tsx:42-45 | A new plan request clears plan, list and error. After a failed one, asking for a shopping list does nothing. |
| MealPlanner.InitialIdle | components/MealPlanner.tsx:11-19 | The freshly mounted view can request a plan with the default selections at once, but no shopping list. |
| DishVisualizer.Visualize | components/DishVisualizer.tsx:50-72 | A blank prompt or a running request changes nothing. Otherwise the image is the JPEG data URL of the bytes, or there is no image and the error is shown. |
| DishVisualizer.EditRequest | components/DishVisualizer.tsx:82-83 | An inline image is edited with the parser's payload and MIME type. Any other URL is edited with the downloaded data. |
| DishVisualizer.Edit | components/DishVisualizer.tsx:74-96 | A blank edit prompt, a missing or empty image URL, or a running edit changes nothing. A successful edit replaces the image with the data URL of the first inline part of the model's answer, as `editImage` builds it, and clears the edit prompt. Any failure keeps the image and shows the error. The busy flag ends either way. |
| DishVisualizer.EditsChain | components/DishVisualizer.tsx:78-86 | After a successful edit the stored URL is a non-empty `data:` URL, so a further edit with a non-blank prompt passes the guard. |
| DishVisualizer.GeneratedImageEditsInline | components/DishVisualizer.tsx:82-83 | Editing a freshly generated image sends back exactly its JPEG bytes, without any download. |
| DishVisualizer.InitialIdle | components/DishVisualizer.tsx:43-48 | In the freshly mounted view both handlers do nothing: the prompt is empty and there is no image. |

## Left out

- The remote calls themselves are not modelled: the chat sessions, text, image and edit models, their prompts and response schemas. Each appears only as its settled outcome, passed in as a parameter.
- `JSON.parse` of a response is not modelled. A parse failure is one of the `Err` outcomes the caller passes in.
- `fileToBase64` is browser file I/O, so it is not modelled. A chosen file is a flag, and the recognised text is the outcome.
- The fetch branch of `parseImageData` (components/DishVisualizer.tsx:14-39) downloads an image and base64-encodes it in the browser. Its result is a parameter.
- The browser store, `localStorage`, is not modelled as I/O. It is modelled as plain state. The `catch` around start-up that logs a corrupt store is not modelled.
- The simulated 500 ms delays of the auth context and the auth provider's own loading flag are not modelled, because they are timing only.
- Interleaving of concurrent handlers is not modelled: each handler is one atomic step. Within a view, the busy-flag guards are modelled.
- Rendering, scrolling, the typing indicator, navigation and resetting the file input are not modelled, because they are presentation.
- Chat.Submit: a chunk whose `text` is `undefined` would append the word "undefined" in JavaScript. Chunks are modelled as strings only.
- SignupPage.Submit: counts the password's length in Unicode code points. JavaScript's `.length` counts UTF-16 code units, so the two differ only for characters outside the Basic Multilingual Plane.
- Auth.SignupKeepsIdsUnique: requires the new id to be fresh, which the application does not check; it relies on timestamps being distinct.
- Auth.UpdateProfileSessionValid: requires unique ids, which the application does not enforce, because its ids are creation timestamps. With a duplicated id, the first stored match may be a different user.
- GeminiService.EditImage: takes the first candidate's parts as given. A response without candidates, which throws a TypeError in JavaScript, is one of the failure outcomes. An `undefined` MIME type is not distinguished from a string.
- GeminiService.GenerateRecipe: models a property read on a parsed value only for missing fields. Numbers are reals, because `JSON.parse` never yields NaN.
- ProfilePage.InitialForm: the field is initialised once and is not re-synchronised when the current user later changes.
- The chat views import a backend handle `ai` that services/geminiService.ts does not export. The chat backend is modelled abstractly, as the stream outcome.
- Passwords are stored and compared in plain text, as in the application. Nothing security-related is modelled.
- The other views are not modelled: dashboard, login page, recipe finder, recipe card, shopping list display and app shell. They only render data or forward to the modelled operations.

=== FILE: auth.dfy ===
/** The in-memory user directory behind contexts/AuthContext.tsx. The
    browser store is modelled directly: its "users" entry is a sequence of
    users and its "currentUser" entry an optional id. Every operation is
    one atomic step; the simulated 500 ms delay is not modelled. */
module Auth {
  import opened Wrappers

  /** A user record; the copy held as the current user carries no password. */
  datatype User = User(id: string, name: string, email: string, password: Option<string>)

  /** `const { password, ...rest } = user`. */
  function Strip(u: User): User {
    u.(password := None)
  }

  /** The account seeded into an empty store. */
  const DemoUser: User := User("demo-user", "Demo User", "demo@kitchen.ai", Some("password"))

  const InvalidCredentials := "Invalid email or password."
  const EmailTaken := "An account with this email already exists."
  const NotLoggedIn := "No user is logged in."
  const UserNotFound := "User not found in storage."

  /** The stored user list, the stored current-user id, and the context's
      current user. */
  datatype AuthState = AuthState(users: seq<User>, storedId: Option<string>, current: Option<User>)

  /** The state after an operation, and the rejection message if the
      operation's promise rejected (`None` when it resolved). */
  datatype Step = Step(state: AuthState, rejection: Option<string>)

  /** `Array.prototype.findIndex`: the first position whose user matches. */
  function FirstIndex(users: seq<User>, matches: User -> bool): (r: Option<nat>)
    ensures r.None? <==> forall i :: 0 <= i < |users| ==> !matches(users[i])
    ensures r.Some? ==> r.value < |users| && matches(users[r.value])
    ensures r.Some? ==> forall j :: 0 <= j < r.value ==> !matches(users[j])
  {
    if |users| == 0 then None
    else if matches(users[0]) then Some(0)
    else match FirstIndex(users[1..], matches)
      case None => None
      case Some(k) => Some(k + 1)
  }

  /** The matcher `u => u.id === id`. */
  function IdIs(id: string): User -> bool {
    (u: User) => u.id == id
  }

  /** The matcher `u => u.email === email && u.password === password`. */
  function CredentialsAre(email: string, password: string): User -> bool {
    (u: User) => u.email == email && u.password == Some(password)
  }

  /** `k` is the position `findIndex` would return. */
  predicate FirstMatch(users: seq<User>, k: int, matches: User -> bool) {
    && 0 <= k < |users| && matches(users[k])
    && forall j :: 0 <= j < k ==> !matches(users[j])
  }

  predicate HasEmail(users: seq<User>, email: string) {
    exists i :: 0 <= i < |users| && users[i].email == email
  }

  /** The start-up effect: seed the demo user into an empty list, then
      restore the session whose id is stored, if such a user exists. */
  function Init(stored: seq<User>, storedId: Option<string>): (r: AuthState)
    ensures |stored| == 0 ==> r.users == [DemoUser]
    ensures |stored| > 0 ==> r.users == stored
    ensures r.storedId == storedId
    ensures r.current.Some? <==>
      storedId.Some? && storedId.value != "" && exists i :: 0 <= i < |r.users| && r.users[i].id == storedId.value
    ensures r.current.Some? ==> r.current.value.password.None? && r.current.value.id == storedId.value
    ensures r.current.Some? ==>
      exists i :: FirstMatch(r.users, i, IdIs(storedId.value)) && r.current.value == Strip(r.users[i])
  {
    var users := if |stored| == 0 then [DemoUser] else stored;
    var current :=
      if storedId.None? || storedId.value == "" then None
      else match FirstIndex(users, IdIs(storedId.value))
        case None => None
        case Some(i) => Some(Strip(users[i]));
    AuthState(users, storedId, current)
  }

  /** `login`: the first user whose email and password both match becomes
      the current user, without its password. */
  function Login(st: AuthState, email: string, password: string): (r: Step)
    ensures r.rejection.None? <==>
      exists i :: 0 <= i < |st.users| && st.users[i].email == email && st.users[i].password == Some(password)
    ensures r.rejection.Some? ==> r.rejection.value == InvalidCredentials && r.state == st
    ensures r.state.users == st.users
    ensures r.rejection.None? ==>
      exists i :: && FirstMatch(st.users, i, CredentialsAre(email, password))
                  && r.state == AuthState(st.users, Some(st.users[i].id), Some(Strip(st.users[i])))
  {
    match FirstIndex(st.users, CredentialsAre(email, password))
    case None => Step(st, Some(InvalidCredentials))
    case Some(i) =>
      var u := st.users[i];
      Step(AuthState(st.users, Some(u.id), Some(Strip(u))), None)
  }

  /** `signup`: refuse a taken email; otherwise append the new user (its id
      supplied by the caller, a timestamp in the application) and log it in. */
  function Signup(st: AuthState, name: string, email: string, password: string, newId: string): (r: Step)
    ensures r.rejection.Some? <==> HasEmail(st.users, email)
    ensures r.rejection.Some? ==> r.rejection.value == EmailTaken && r.state == st
    ensures r.rejection.None? ==>
      && r.state.users == st.users + [User(newId, name, email, Some(password))]
      && r.state.storedId == Some(newId)
      && r.state.current == Some(User(newId, name, email, None))
  {
    if HasEmail(st.users, email) then Step(st, Some(EmailTaken))
    else
      var u := User(newId, name, email, Some(password));
      Step(AuthState(st.users + [u], Some(newId), Some(Strip(u))), None)
  }

  /** `logout`: forget the current user and its stored id. */
  function Logout(st: AuthState): (r: AuthState)
    ensures r.users == st.users
    ensures r.current.None? && r.storedId.None?
  {
    st.(storedId := None, current := None)
  }

  /** `updateProfile`: rename the first stored user whose id is the current
      user's, and the current user with it. */
  function UpdateProfile(st: AuthState, name: string): (r: Step)
    ensures st.current.None? ==> r == Step(st, Some(NotLoggedIn))
    ensures st.current.Some? && (forall i :: 0 <= i < |st.users| ==> st.users[i].id != st.current.value.id)
            ==> r == Step(st, Some(UserNotFound))
    ensures r.rejection.None? <==>
      st.current.Some? && exists i :: 0 <= i < |st.users| && st.users[i].id == st.current.value.id
    ensures r.rejection.Some? ==> r.state == st
    ensures r.rejection.None? ==>
      && st.current.Some?
      && r.state.current == Some(st.current.value.(name := name))
      && r.state.storedId == st.storedId
      && |r.state.users| == |st.users|
      && exists k :: && FirstMatch(st.users, k, IdIs(st.current.value.id))
                     && r.state.users[k] == st.users[k].(name := name)
                     && forall j :: 0 <= j < |st.users| && j != k ==> r.state.users[j] == st.users[j]
  {
    match st.current
    case None => Step(st, Some(NotLoggedIn))
    case Some(cur) =>
      match FirstIndex(st.users, IdIs(cur.id))
      case None => Step(st, Some(UserNotFound))
      case Some(k) =>
        Step(AuthState(st.users[k := st.users[k].(name := name)], st.storedId, Some(cur.(name := name))), None)
  }

  /** No two stored users share an email. */
  predicate UniqueEmails(users: seq<User>) {
    forall i, j :: 0 <= i < j < |users| ==> users[i].email != users[j].email
  }

  /** No two stored users share an id. */
  predicate UniqueIds(users: seq<User>) {
    forall i, j :: 0 <= i < j < |users| ==> users[i].id != users[j].id
  }

  /** The session agrees with the store: the current user is a stored user
      without its password, and its id is the stored current-user id. */
  predicate SessionValid(st: AuthState) {
    st.current.Some? ==>
      && st.current.value.password.None?
      && st.storedId == Some(st.current.value.id)
      && exists i :: 0 <= i < |st.users| && Strip(st.users[i]) == st.current.value
  }

  /** Email uniqueness holds after start-up and is kept by every operation. */
  lemma EmailsStayUnique(st: AuthState, stored: seq<User>, storedId: Option<string>,
                         name: string, email: string, password: string, newId: string)
    ensures UniqueEmails(stored) ==> UniqueEmails(Init(stored, storedId).users)
    ensures UniqueEmails(st.users) ==> UniqueEmails(Login(st, email, password).state.users)
    ensures UniqueEmails(st.users) ==> UniqueEmails(Signup(st, name, email, password, newId).state.users)
    ensures UniqueEmails(st.users) ==> UniqueEmails(Logout(st).users)
    ensures UniqueEmails(st.users) ==> UniqueEmails(UpdateProfile(st, name).state.users)
  {
    var r := Signup(st, name, email, password, newId);
    if UniqueEmails(st.users) && r.rejection.None? {
      var us := r.state.users;
      forall i, j | 0 <= i < j < |us| ensures us[i].email != us[j].email {
        if j == |st.users| {
          assert us[i] == st.users[i];
        }
      }
    }
    var q := UpdateProfile(st, name);
    if UniqueEmails(st.users) && q.rejection.None? {
      var us := q.state.users;
      forall i, j | 0 <= i < j < |us| ensures us[i].email != us[j].email {
        assert us[i].email == st.users[i].email && us[j].email == st.users[j].email;
      }
    }
  }

  /** Start-up restores only a stored user, without its password. */
  lemma InitSessionValid(stored: seq<User>, storedId: Option<string>)
    ensures SessionValid(Init(stored, storedId))
  {
    var r := Init(stored, storedId);
    if r.current.Some? {
      var k := FirstIndex(r.users, IdIs(storedId.value)).value;
      assert Strip(r.users[k]) == r.current.value;
    }
  }

  /** Logging in, out, or signing up keeps the session consistent with the
      store. */
  lemma SessionStaysValid(st: AuthState, name: string, email: string, password: string, newId: string)
    requires SessionValid(st)
    ensures SessionValid(Login(st, email, password).state)
    ensures SessionValid(Signup(st, name, email, password, newId).state)
    ensures SessionValid(Logout(st))
  {
    var l := Login(st, email, password);
    if l.rejection.None? {
      var k :| FirstMatch(st.users, k, CredentialsAre(email, password))
        && l.state == AuthState(st.users, Some(st.users[k].id), Some(Strip(st.users[k])));
      assert Strip(st.users[k]) == l.state.current.value;
    }
    var s := Signup(st, name, email, password, newId);
    if s.rejection.None? {
      assert Strip(s.state.users[|st.users|]) == s.state.current.value;
    }
  }

  /** Signing up with an id no stored user has keeps ids unique. The
      application's ids are timestamps, so freshness is the caller's
      assumption, not something the directory checks. */
  lemma SignupKeepsIdsUnique(st: AuthState, name: string, email: string, password: string, newId: string)
    requires UniqueIds(st.users)
    requires forall i :: 0 <= i < |st.users| ==> st.users[i].id != newId
    ensures UniqueIds(Signup(st, name, email, password, newId).state.users)
  {
    var s := Signup(st, name, email, password, newId);
    if s.rejection.None? {
      var us := s.state.users;
      forall i, j | 0 <= i < j < |us| ensures us[i].id != us[j].id {
        if j == |st.users| {
          assert us[i] == st.users[i];
        }
      }
    }
  }

  /** Renaming keeps the session consistent with the store when ids are
      unique; with a duplicated id the first match might be another user. */
  lemma UpdateProfileSessionValid(st: AuthState, name: string)
    requires SessionValid(st) && UniqueIds(st.users)
    ensures SessionValid(UpdateProfile(st, name).state)
    ensures UniqueIds(UpdateProfile(st, name).state.users)
  {
    var q := UpdateProfile(st, name);
    if q.rejection.None? {
      var cur := st.current.value;
      var k :| FirstMatch(st.users, k, IdIs(cur.id)) && q.state.users[k] == st.users[k].(name := name)
        && forall j :: 0 <= j < |st.users| && j != k ==> q.state.users[j] == st.users[j];
      var i :| 0 <= i < |st.users| && Strip(st.users[i]) == cur;
      assert st.users[i].id == cur.id;
      assert st.users[k].id == cur.id by { assert IdIs(cur.id)(st.users[k]); }
      assert i == k;
      assert Strip(q.state.users[k]) == q.state.current.value;
      var us := q.state.users;
      forall a, b | 0 <= a < b < |us| ensures us[a].id != us[b].id {
        assert us[a].id == st.users[a].id && us[b].id == st.users[b].id;
      }
    }
  }
}

=== FILE: chat.dfy ===
/** The streaming chat transcript shared by the cooking assistant
    (components/CookingAssistant.tsx) and the study helper
    (components/StudyHelper.tsx). Both views run the same turn algorithm and
    differ only in their greeting and apology texts, so the algorithm is
    modelled once and parameterised by a `Persona`. */
module Chat {
  import opened JsStrings

  datatype Role = User | Model

  datatype Message = Message(role: Role, text: string)

  /** The two fixed texts of a chat view. */
  datatype Persona = Persona(greeting: string, apology: string)

  /** The cooking assistant, bound to one recipe. */
  function CookingPersona(recipeName: string): Persona {
    Persona("Hello! I'm Chef Gemini. How can I help you with the \"" + recipeName + "\" recipe?",
            "Sorry, I had a little trouble in the kitchen. Please try again.")
  }

  /** The study helper. */
  const StudyPersona: Persona :=
    Persona("Hello! I'm your Study Buddy. What topic would you like to explore today?",
            "Sorry, I seem to be having a problem. Please try asking again.")

  /** The state a chat view holds: the transcript, the input box, whether a
      chat session has been created, and the loading flag. */
  datatype ChatView = ChatView(history: seq<Message>, input: string, hasSession: bool, loading: bool)

  /** The view before its first effect has run: no session, empty transcript. */
  const Initial: ChatView := ChatView([], "", false, false)

  /** How the backend answers one `sendMessageStream` call. */
  datatype StreamOutcome =
    | FailsToOpen                       // the call itself rejects
    | FailsAfter(chunks: seq<string>)   // the stream yields these chunks, then throws
    | Completes(chunks: seq<string>)    // the stream yields these chunks and ends

  /** The running reply after the given chunks: `modelResponse += chunk.text`
      applied left to right, starting from the empty string. */
  function Concat(chunks: seq<string>): string {
    if |chunks| == 0 then "" else Concat(chunks[..|chunks| - 1]) + chunks[|chunks| - 1]
  }

  /** Opening the view, or binding it to a new recipe: a fresh session and a
      transcript holding only the greeting. The input box and loading flag are
      not touched by the effect. */
  function Open(v: ChatView, p: Persona): ChatView {
    v.(history := [Message(Model, p.greeting)], hasSession := true)
  }

  /** The guard of `handleSubmit`: the input has a non-blank character (so
      `userInput.trim()` is non-empty, by the contract of `Trim`), a session
      exists, and no turn is in flight. */
  predicate Accepts(v: ChatView) {
    !IsBlank(v.input) && v.hasSession && !v.loading
  }

  /** The synchronous start of an accepted turn: the raw input becomes a user
      message, the input box is cleared and loading is set. */
  function Begin(v: ChatView): ChatView {
    v.(history := v.history + [Message(User, v.input)], input := "", loading := true)
  }

  /** One streamed chunk: the last message's text becomes the running reply;
      every other message, and the last one's role, stay as they were. */
  function ApplyChunk(h: seq<Message>, running: string): (r: seq<Message>)
    requires |h| > 0
    ensures |r| == |h|
    ensures r[..|h| - 1] == h[..|h| - 1]
    ensures r[|h| - 1].role == h[|h| - 1].role && r[|h| - 1].text == running
  {
    h[..|h| - 1] + [h[|h| - 1].(text := running)]
  }

  /** The transcript after the first `k` chunks have been applied, one at a
      time, to a transcript whose last entry is the placeholder. */
  function Streamed(h: seq<Message>, chunks: seq<string>, k: nat): seq<Message>
    requires |h| > 0 && k <= |chunks|
    decreases k
  {
    if k == 0 then h else ApplyChunk(Streamed(h, chunks, k - 1), Concat(chunks[..k]))
  }

  /** `handleSubmit` as one atomic step, with the backend's answer given. */
  function Submit(v: ChatView, p: Persona, outcome: StreamOutcome): (r: ChatView)
    ensures !Accepts(v) ==> r == v
    ensures Accepts(v) ==> r.input == "" && !r.loading && r.hasSession
    ensures Accepts(v) && outcome.Completes? ==>
      r.history == v.history + [Message(User, v.input), Message(Model, Concat(outcome.chunks))]
    ensures Accepts(v) && outcome.FailsToOpen? ==>
      r.history == v.history + [Message(User, v.input), Message(Model, p.apology)]
    ensures Accepts(v) && outcome.FailsAfter? ==>
      r.history == v.history + [Message(User, v.input), Message(Model, Concat(outcome.chunks)),
                                Message(Model, p.apology)]
  {
    if !Accepts(v) then v
    else
      var b := Begin(v);
      var placeholder := b.history + [Message(Model, "")];
      match outcome
      case FailsToOpen =>
        b.(history := b.history + [Message(Model, p.apology)], loading := false)
      case FailsAfter(chunks) =>
        StreamedShape(b.history, chunks, |chunks|);
        assert chunks[..|chunks|] == chunks;
        b.(history := Streamed(placeholder, chunks, |chunks|) + [Message(Model, p.apology)],
           loading := false)
      case Completes(chunks) =>
        StreamedShape(b.history, chunks, |chunks|);
        assert chunks[..|chunks|] == chunks;
        b.(history := Streamed(placeholder, chunks, |chunks|), loading := false)
  }

  /** After `k` chunks the placeholder holds the concatenation of the first
      `k` chunks and every earlier message is untouched. */
  lemma {:induction false} StreamedShape(prefix: seq<Message>, chunks: seq<string>, k: nat)
    requires k <= |chunks|
    ensures Streamed(prefix + [Message(Model, "")], chunks, k)
            == prefix + [Message(Model, Concat(chunks[..k]))]
    decreases k
  {
    if k > 0 {
      StreamedShape(prefix, chunks, k - 1);
    }
  }

  /** Concatenation distributes over joining chunk sequences. */
  lemma {:induction false} ConcatAppend(a: seq<string>, b: seq<string>)
    ensures Concat(a + b) == Concat(a) + Concat(b)
    decreases |b|
  {
    if |b| > 0 {
      var b' := b[..|b| - 1];
      assert (a + b)[..|a + b| - 1] == a + b';
      ConcatAppend(a, b');
      calc {
        Concat(a + b);
        Concat(a + b') + b[|b| - 1];
        Concat(a) + Concat(b') + b[|b| - 1];
        Concat(a) + (Concat(b') + b[|b| - 1]);
        Concat(a) + Concat(b);
      }
    } else {
      assert a + b == a;
    }
  }

  /** The reply does not depend on where the stream cuts its chunks:
      delivering `x + y` as one chunk or as two gives the same transcript. */
  lemma ChunkBoundariesIrrelevant(v: ChatView, p: Persona, a: seq<string>, x: string, y: string,
                                  b: seq<string>)
    ensures Submit(v, p, Completes(a + [x + y] + b)) == Submit(v, p, Completes(a + [x, y] + b))
    ensures Submit(v, p, FailsAfter(a + [x + y] + b)) == Submit(v, p, FailsAfter(a + [x, y] + b))
  {
    ConcatAppend(a + [x + y], b);
    ConcatAppend(a + [x, y], b);
    ConcatAppend(a, [x + y]);
    ConcatAppend(a, [x, y]);
    assert [x, y][..1] == [x];
    assert Concat([x + y]) == Concat([x, y]);
  }

  /** A turn never leaves the view blocked: whatever the backend did, the
      next non-blank input is accepted. */
  lemma FailureNeverBlocks(v: ChatView, p: Persona, outcome: StreamOutcome, next: string)
    requires Accepts(v)
    requires !IsBlank(next)
    ensures Accepts(Submit(v, p, outcome).(input := next))
  {
  }

  /** The last message of a non-empty transcript is the model's. */
  predicate EndsWithModel(h: seq<Message>) {
    |h| > 0 && h[|h| - 1].role == Model
  }

  /** The transcript invariant the views keep once opened: it is non-empty
      and every user message is immediately followed by a model message, so
      no user message is left unanswered. */
  predicate Answered(h: seq<Message>) {
    && |h| > 0
    && forall i :: 0 <= i < |h| && h[i].role == User ==> i + 1 < |h| && h[i + 1].role == Model
  }

  /** Opening establishes the invariant, every turn preserves it, and a
      transcript that keeps it always ends with a model message. */
  lemma TranscriptInvariant(v: ChatView, p: Persona, outcome: StreamOutcome)
    ensures Answered(Open(v, p).history)
    ensures Answered(v.history) ==> Answered(Submit(v, p, outcome).history)
    ensures Answered(v.history) ==> EndsWithModel(v.history)
  {
    var h := v.history;
    var r := Submit(v, p, outcome).history;
    if Answered(h) && Accepts(v) {
      forall i | 0 <= i < |r| && r[i].role == User ensures i + 1 < |r| && r[i + 1].role == Model {
        if i < |h| {
          assert r[i] == h[i];
          assert r[i + 1] == h[i + 1];
        }
      }
    }
  }

  /** Opening forgets everything said before: the transcript after opening
      depends on the persona alone. */
  lemma OpenResets(v: ChatView, w: ChatView, p: Persona)
    ensures Open(v, p).history == Open(w, p).history
    ensures |Open(v, p).history| == 1 && Open(v, p).history[0] == Message(Model, p.greeting)
    ensures Open(Open(v, p), p) == Open(v, p)
  {
  }

  /** Before its effect has run a view has no session, so no turn can be
      taken; opening it yields a transcript that keeps the invariant. */
  lemma InitialIdle(p: Persona, outcome: StreamOutcome)
    ensures Submit(Initial, p, outcome) == Initial
    ensures Open(Initial, p).hasSession && Answered(Open(Initial, p).history)
    ensures !Accepts(Open(Initial, p))
  {
  }

  /** The cooking greeting names the bound recipe, between quotes. */
  lemma CookingGreetingNamesRecipe(recipeName: string)
    ensures var g := CookingPersona(recipeName).greeting;
      var n := |"Hello! I'm Chef Gemini. How can I help you with the \""|;
      n + |recipeName| < |g| && g[n..n + |recipeName|] == recipeName
      && g[n - 1] == '"' && g[n + |recipeName|] == '"'
  {
  }

  /** The study helper opens with its fixed greeting, and any failed turn
      ends with its own apology after the user's message. */
  lemma StudyHelperTexts(v: ChatView, outcome: StreamOutcome)
    ensures Open(v, StudyPersona).history
            == [Message(Model, "Hello! I'm your Study Buddy. What topic would you like to explore today?")]
    ensures Accepts(v) && !outcome.Completes? ==>
      var h := Submit(v, StudyPersona, outcome).history;
      && h[|h| - 1] == Message(Model, "Sorry, I seem to be having a problem. Please try asking again.")
      && h[..|v.history|] == v.history
      && h[|v.history|] == Message(User, v.input)
  {
  }

  /** The `for await` loop of `handleSubmit`: each chunk is added to the
      running reply, which then overwrites the last message. */
  method StreamChunks(h: seq<Message>, chunks: seq<string>) returns (r: seq<Message>)
    requires |h| > 0
    ensures r == Streamed(h, chunks, |chunks|)
  {
    r := h;
    var modelResponse := "";
    var i := 0;
    while i < |chunks|
      invariant i <= |chunks|
      invariant modelResponse == Concat(chunks[..i])
      invariant r == Streamed(h, chunks, i)
    {
      modelResponse := modelResponse + chunks[i];
      assert chunks[..i + 1][..i] == chunks[..i];
      r := ApplyChunk(r, modelResponse);
      i := i + 1;
    }
  }

  /** `handleSubmit` statement by statement: the guard, the `try` around
      the stream, the `catch` and the `finally`. It computes exactly the
      atomic `Submit`. */
  method HandleSubmit(v: ChatView, p: Persona, outcome: StreamOutcome) returns (r: ChatView)
    ensures r == Submit(v, p, outcome)
  {
    var trimmed := Trim(v.input);
    if trimmed == "" || !v.hasSession || v.loading {
      assert !Accepts(v);
      return v;
    }
    assert Accepts(v);
    r := Begin(v);
    if outcome.FailsToOpen? {
      r := r.(history := r.history + [Message(Model, p.apology)]);
    } else {
      var streamed := StreamChunks(r.history + [Message(Model, "")], outcome.chunks);
      r := r.(history := streamed);
      if outcome.FailsAfter? {
        r := r.(history := r.history + [Message(Model, p.apology)]);
      }
    }
    r := r.(loading := false);
  }
}

=== FILE: data_url.dfy ===
/** Building and parsing the `data:` URLs that carry generated images
    (RFC 2397, section 3: `data:[<mediatype>][;base64],<data>`). The
    service builds them; `parseImageData` in components/DishVisualizer.tsx
    takes them apart again by splitting on `,`, `:` and `;`. */
module DataUrl {
  import opened Wrappers
  import opened JsStrings

  /** `data:${mimeType};base64,${payload}`. */
  function Build(mimeType: string, payload: string): string {
    "data:" + mimeType + ";base64," + payload
  }

  /** What `parseImageData` returns; `data` is `None` where JavaScript
      would yield `undefined` (an input without a comma). */
  datatype ImageData = ImageData(data: Option<string>, mimeType: string)

  /** The branch `parseImageData` takes: an inline data URL, or a URL to
      fetch (the fetch itself is browser I/O and is not modelled). */
  datatype Parsed = Inline(image: ImageData) | Fetch(url: string)

  const InlinePrefix := "data:image/"

  /** The first `split` piece of a string that starts with a separator-free
      prefix still starts with that prefix. */
  lemma FirstPieceKeepsPrefix(s: string, p: string, sep: char)
    requires StartsWith(s, p) && sep !in p
    ensures StartsWith(Split(s, sep)[0], p)
  {
    match IndexOf(s, sep)
    case None =>
    case Some(i) =>
      assert Split(s, sep)[0] == s[..i];
  }

  /** A string containing the separator splits into at least two pieces. */
  lemma SplitsInTwo(s: string, sep: char)
    requires sep in s
    ensures |Split(s, sep)| >= 2
  {
  }

  /** The header of an inline data URL always has a `:`, so the second
      piece the parser reads exists. */
  lemma InlineHeaderHasColon(s: string)
    requires StartsWith(s, InlinePrefix)
    ensures |Split(Split(s, ',')[0], ':')| >= 2
  {
    FirstPieceKeepsPrefix(s, InlinePrefix, ',');
    var h := Split(s, ',')[0];
    assert h[4] == InlinePrefix[4] == ':';
    SplitsInTwo(h, ':');
  }

  /** `parseImageData` on its inline branch: the payload is the text
      between the first and second comma, the MIME type the text between
      the first `:` and the next `;` of the header. */
  function Parse(s: string): (r: Parsed)
    ensures r.Inline? <==> StartsWith(s, InlinePrefix)
    ensures r.Fetch? ==> r.url == s
    ensures r.Inline? ==> (r.image.data.Some? <==> ',' in s)
    ensures r.Inline? && r.image.data.Some? ==> ',' !in r.image.data.value
    ensures r.Inline? ==> ':' !in r.image.mimeType && ';' !in r.image.mimeType && ',' !in r.image.mimeType
  {
    if StartsWith(s, InlinePrefix) then
      var parts := Split(s, ',');
      InlineHeaderHasColon(s);
      var meta := Split(Split(parts[0], ':')[1], ';')[0];
      assert ',' !in meta by {
        assert forall c :: c in meta ==> c in Split(parts[0], ':')[1];
        assert forall c :: c in Split(parts[0], ':')[1] ==> c in parts[0];
      }
      Inline(ImageData(At(parts, 1), meta))
    else
      Fetch(s)
  }

  /** The MIME types a built URL can round-trip: an `image/` type with none
      of the three separators the parser splits on. */
  predicate RoundTrippableMime(mimeType: string) {
    StartsWith(mimeType, "image/") && ',' !in mimeType && ':' !in mimeType && ';' !in mimeType
  }

  /** A built URL is its header, a comma and the payload; the header is
      `data`, a colon and the MIME type followed by `;base64`. */
  lemma BuildShape(mimeType: string, payload: string)
    requires RoundTrippableMime(mimeType)
    ensures var tail := mimeType + ";base64";
      && Build(mimeType, payload) == ("data" + [':'] + tail) + [','] + payload
      && ',' !in "data" + [':'] + tail
      && ':' !in tail
      && tail == mimeType + [';'] + "base64"
      && StartsWith(Build(mimeType, payload), InlinePrefix)
  {
    var tail := mimeType + ";base64";
    var s := Build(mimeType, payload);
    assert s[..|InlinePrefix|] == InlinePrefix by {
      assert mimeType[..6] == "image/";
      assert s[..|InlinePrefix|] == "data:" + mimeType[..6];
    }
    assert forall k :: 0 <= k < |tail| ==> tail[k] in mimeType || tail[k] in ";base64";
  }

  /** The parser's three splits, on a string known to take the inline branch. */
  lemma ParseInline(s: string)
    requires StartsWith(s, InlinePrefix)
    ensures |Split(Split(s, ',')[0], ':')| >= 2
    ensures Parse(s) == Inline(ImageData(At(Split(s, ','), 1), Split(Split(Split(s, ',')[0], ':')[1], ';')[0]))
  {
    InlineHeaderHasColon(s);
  }

  /** The header `data:<mime>;base64` yields the MIME type back. */
  lemma HeaderYieldsMime(mimeType: string)
    requires RoundTrippableMime(mimeType)
    ensures var header := "data" + [':'] + (mimeType + ";base64");
      |Split(header, ':')| >= 2 && Split(Split(header, ':')[1], ';')[0] == mimeType
  {
    var tail := mimeType + ";base64";
    BuildShape(mimeType, "");
    SplitFirstPiece("data", ':', tail);
    assert Split(tail, ':') == [tail];
    SplitFirstPiece(mimeType, ';', "base64");
  }

  /** Parsing a built URL recovers the MIME type and the payload up to its
      first comma. */
  lemma ParseBuild(mimeType: string, payload: string)
    requires RoundTrippableMime(mimeType)
    ensures Parse(Build(mimeType, payload)) == Inline(ImageData(Some(Split(payload, ',')[0]), mimeType))
  {
    var header := "data" + [':'] + (mimeType + ";base64");
    var s := Build(mimeType, payload);
    BuildShape(mimeType, payload);
    SplitFirstPiece(header, ',', payload);
    assert Split(s, ',') == [header] + Split(payload, ',');
    HeaderYieldsMime(mimeType);
    ParseInline(s);
  }

  /** The round trip: a comma-free payload comes back whole. */
  lemma RoundTrip(mimeType: string, payload: string)
    requires RoundTrippableMime(mimeType) && ',' !in payload
    ensures Parse(Build(mimeType, payload)) == Inline(ImageData(Some(payload), mimeType))
  {
    ParseBuild(mimeType, payload);
    assert Split(payload, ',') == [payload];
  }

  /** Everything from the payload's first comma on is dropped. */
  lemma SecondCommaDropped(mimeType: string, kept: string, dropped: string)
    requires RoundTrippableMime(mimeType) && ',' !in kept
    ensures Parse(Build(mimeType, kept + "," + dropped)).image.data == Some(kept)
  {
    ParseBuild(mimeType, kept + "," + dropped);
    SplitFirstPiece(kept, ',', dropped);
  }
}

=== FILE: dish_visualizer.dfy ===
/** The two handlers of components/DishVisualizer.tsx: generating a dish
    image and editing it with a further prompt. */
module DishVisualizer {
  import opened Wrappers
  import opened JsStrings
  import DataUrl
  import GeminiService

  /** The view's state: both prompts, the current image URL, the two busy
      flags and the error banner. */
  datatype VisualizerView = VisualizerView(
    prompt: string, editPrompt: string, image: Option<string>,
    loading: bool, editing: bool, error: Option<string>)

  const Initial: VisualizerView := VisualizerView("", "", None, false, false, None)

  const VisualizeFailed := "Failed to visualize dish. Check your Freepik API key or daily limit (20 images/day)."
  const EditFailed := "Failed to edit image. Check your Freepik API key or daily limit."

  /** The guard of `handleSubmit`: `prompt.trim()` is non-empty and no
      request is running. */
  predicate AcceptsVisualize(v: VisualizerView) {
    !IsBlank(v.prompt) && !v.loading
  }

  /** The state while the image request is in flight. */
  function BeginVisualize(v: VisualizerView): VisualizerView {
    v.(loading := true, error := None, image := None)
  }

  /** `handleSubmit` as one atomic step, given the image bytes the image
      model returned (or its failure). */
  function Visualize(v: VisualizerView, imageBytes: Result<string>): (r: VisualizerView)
    ensures !AcceptsVisualize(v) ==> r == v
    ensures AcceptsVisualize(v) ==> !r.loading
    ensures AcceptsVisualize(v) && imageBytes.Ok? ==>
      r.image == Some(DataUrl.Build("image/jpeg", imageBytes.value)) && r.error.None?
    ensures AcceptsVisualize(v) && imageBytes.Err? ==> r.image.None? && r.error == Some(VisualizeFailed)
    ensures (r.prompt, r.editPrompt, r.editing) == (v.prompt, v.editPrompt, v.editing)
  {
    if !AcceptsVisualize(v) then v
    else
      var b := BeginVisualize(v);
      var settled :=
        match GeminiService.GenerateImage(imageBytes)
        case Ok(url) => b.(image := Some(url))
        case Err(_) => b.(error := Some(VisualizeFailed));
      settled.(loading := false)
  }

  /** The guard of `handleEdit`: `editPrompt.trim()` is non-empty, there is
      an image URL and it is not the (falsy) empty string, and no edit is
      running. */
  predicate AcceptsEdit(v: VisualizerView) {
    !IsBlank(v.editPrompt) && v.image.Some? && v.image.value != "" && !v.editing
  }

  /** What `editImage` is called with: payload, MIME type and prompt. */
  datatype EditCall = EditCall(data: Option<string>, mimeType: string, prompt: string)

  /** The call an accepted edit makes, if `parseImageData` succeeds: an
      inline image is parsed in place; any other URL is fetched, with
      `fetched` standing for that download's outcome. */
  function EditRequest(v: VisualizerView, fetched: Result<DataUrl.ImageData>): (r: Result<EditCall>)
    requires AcceptsEdit(v)
    ensures DataUrl.Parse(v.image.value).Inline? ==>
      r == Ok(EditCall(DataUrl.Parse(v.image.value).image.data, DataUrl.Parse(v.image.value).image.mimeType,
                       v.editPrompt))
    ensures DataUrl.Parse(v.image.value).Fetch? ==>
      (r.Ok? <==> fetched.Ok?) && (r.Ok? ==> r.value == EditCall(fetched.value.data, fetched.value.mimeType, v.editPrompt))
  {
    var parsed :=
      match DataUrl.Parse(v.image.value)
      case Inline(d) => Ok(d)
      case Fetch(_) => fetched;
    match parsed
    case Ok(d) => Ok(EditCall(d.data, d.mimeType, v.editPrompt))
    case Err(m) => Err(m)
  }

  /** `handleEdit` as one atomic step. `edited` is the parts of the first
      candidate the image model answered with (or the call's failure), which
      `editImage` turns into the new URL. */
  function Edit(v: VisualizerView, fetched: Result<DataUrl.ImageData>, edited: Result<seq<GeminiService.Part>>): (r: VisualizerView)
    ensures !AcceptsEdit(v) ==> r == v
    ensures AcceptsEdit(v) ==> !r.editing
    ensures AcceptsEdit(v) && EditRequest(v, fetched).Ok? && GeminiService.EditImage(edited).Ok? ==>
      && r == v.(image := r.image, editPrompt := "", error := None)
      && r.image.Some? && StartsWith(r.image.value, "data:")
      && exists i :: && GeminiService.FirstInline(edited.value, i)
                     && r.image.value == DataUrl.Build(edited.value[i].inlineData.value.mimeType,
                                                       edited.value[i].inlineData.value.data)
    ensures AcceptsEdit(v) && (EditRequest(v, fetched).Err? || GeminiService.EditImage(edited).Err?) ==>
      r == v.(error := Some(EditFailed))
  {
    if !AcceptsEdit(v) then v
    else
      var b := v.(editing := true, error := None);
      var settled :=
        match EditRequest(v, fetched)
        case Err(_) => b.(error := Some(EditFailed))
        case Ok(_) =>
          match GeminiService.EditImage(edited)
          case Ok(url) => b.(image := Some(url), editPrompt := "")
          case Err(_) => b.(error := Some(EditFailed));
      settled.(editing := false)
  }

  /** A successful edit leaves a non-empty image URL, so a further edit with
      a non-blank prompt is accepted: edits can be chained. */
  lemma EditsChain(v: VisualizerView, fetched: Result<DataUrl.ImageData>,
                   edited: Result<seq<GeminiService.Part>>, next: string)
    requires AcceptsEdit(v) && EditRequest(v, fetched).Ok? && GeminiService.EditImage(edited).Ok?
    requires !IsBlank(next)
    ensures AcceptsEdit(Edit(v, fetched, edited).(editPrompt := next))
  {
  }

  /** The freshly mounted view has an empty prompt and no image, so neither
      handler does anything. */
  lemma InitialIdle(imageBytes: Result<string>, fetched: Result<DataUrl.ImageData>, edited: Result<seq<GeminiService.Part>>)
    ensures Visualize(Initial, imageBytes) == Initial
    ensures Edit(Initial, fetched, edited) == Initial
  {
  }

  /** Editing a freshly generated image sends back exactly the JPEG bytes the
      image model produced, as long as they hold no comma (base64 never
      does); the fetch branch is not involved. */
  lemma GeneratedImageEditsInline(v: VisualizerView, bytes: string, fetched: Result<DataUrl.ImageData>)
    requires AcceptsVisualize(v) && ',' !in bytes
    requires !IsBlank(v.editPrompt) && !v.editing
    ensures var w := Visualize(v, Ok(bytes));
      AcceptsEdit(w) && EditRequest(w, fetched) == Ok(EditCall(Some(bytes), "image/jpeg", v.editPrompt))
  {
    GeminiService.GeneratedImageParses(bytes);
  }
}

=== FILE: gemini_service.dfy ===
/** The response handling of services/geminiService.ts. Every remote call
    (and the `JSON.parse` of its text) is replaced by its settled outcome,
    passed in as a `Result`; what remains is the response validation each
    service function applies and the URLs it builds. */
module GeminiService {
  import opened Wrappers
  import opened JsStrings
  import DataUrl

  /** A JavaScript value as `JSON.parse` produces it, plus `undefined` for a
      missing property. */
  datatype JsValue =
    | Undefined
    | Null
    | Bool(b: bool)
    | Number(x: real)
    | Str(s: string)
    | Arr(items: seq<JsValue>)
    | Obj(fields: map<string, JsValue>)

  /** JavaScript truthiness; `!v` is its negation. Empty arrays and objects
      are truthy, the empty string and zero are not. */
  predicate Truthy(v: JsValue) {
    match v
    case Undefined => false
    case Null => false
    case Bool(b) => b
    case Number(x) => x != 0.0
    case Str(s) => s != ""
    case Arr(_) => true
    case Obj(_) => true
  }

  predicate Nullish(v: JsValue) {
    v.Undefined? || v.Null?
  }

  /** `v.key` on a value that is not `null`/`undefined`. */
  function Prop(v: JsValue, key: string): JsValue {
    if v.Obj? && key in v.fields then v.fields[key] else Undefined
  }

  const InvalidRecipe := "Invalid recipe format received from API."
  const InvalidMealPlan := "Invalid meal plan format received from API."
  const NoImage := "No image was generated by the model."
  /** Reading a property of `null` or `undefined` throws a TypeError. */
  const PropertyOfNullish := "TypeError: cannot read properties of null or undefined"

  /** The negation of `!d.f1 || !d.f2 || ...`, evaluated left to right: the
      first property read throws on a nullish value; otherwise the chain
      stops at the first falsy field. The result is `Ok(true)` exactly when
      every field is truthy. */
  function AllTruthy(v: JsValue, keys: seq<string>): (r: Result<bool>)
    requires |keys| > 0
    ensures Nullish(v) ==> r == Err(PropertyOfNullish)
    ensures !Nullish(v) ==> r == Ok(forall k :: 0 <= k < |keys| ==> Truthy(Prop(v, keys[k])))
    decreases |keys|
  {
    if Nullish(v) then Err(PropertyOfNullish)
    else if !Truthy(Prop(v, keys[0])) then Ok(false)
    else if |keys| == 1 then Ok(true)
    else
      var rest := AllTruthy(v, keys[1..]);
      assert forall k :: 1 <= k < |keys| ==> keys[k] == keys[1..][k - 1];
      rest
  }

  /** The field check of `generateRecipe` (and, with other fields and
      message, of `generateMealPlan`): pass the value through, or throw. */
  function Check(response: Result<JsValue>, keys: seq<string>, invalid: string): (r: Result<JsValue>)
    requires |keys| > 0
    ensures response.Err? ==> r == response
    ensures r.Ok? <==> response.Ok? && !Nullish(response.value)
                       && forall k :: 0 <= k < |keys| ==> Truthy(Prop(response.value, keys[k]))
    ensures r.Ok? ==> r == response
    ensures response.Ok? && !Nullish(response.value) && r.Err? ==> r.message == invalid
    ensures response.Ok? && Nullish(response.value) ==> r == Err(PropertyOfNullish)
  {
    match response
    case Err(m) => Err(m)
    case Ok(v) =>
      match AllTruthy(v, keys)
      case Err(m) => Err(m)
      case Ok(good) => if good then Ok(v) else Err(invalid)
  }

  const RecipeFields := ["recipeName", "ingredients", "instructions"]
  const MealPlanFields := ["title", "dailyPlans"]

  /** What `generateRecipe` accepts: all three fields truthy. */
  predicate RecipeShaped(v: JsValue) {
    && !Nullish(v)
    && Truthy(Prop(v, "recipeName"))
    && Truthy(Prop(v, "ingredients"))
    && Truthy(Prop(v, "instructions"))
  }

  /** What `generateMealPlan` accepts: title and daily plans truthy. */
  predicate MealPlanShaped(v: JsValue) {
    !Nullish(v) && Truthy(Prop(v, "title")) && Truthy(Prop(v, "dailyPlans"))
  }

  /** `generateRecipe`, given the parsed model response. */
  function GenerateRecipe(response: Result<JsValue>): (r: Result<JsValue>)
    ensures r.Ok? <==> response.Ok? && RecipeShaped(response.value)
    ensures r.Ok? ==> r == response
    ensures response.Ok? && !Nullish(response.value) && r.Err? ==> r == Err(InvalidRecipe)
    ensures response.Ok? && Nullish(response.value) ==> r == Err(PropertyOfNullish)
    ensures response.Err? ==> r == response
  {
    var r := Check(response, RecipeFields, InvalidRecipe);
    assert r.Ok? ==> Truthy(Prop(response.value, RecipeFields[0]));
    assert r.Ok? ==> Truthy(Prop(response.value, RecipeFields[1]));
    assert r.Ok? ==> Truthy(Prop(response.value, RecipeFields[2]));
    r
  }

  /** `generateMealPlan`, given the parsed model response. */
  function GenerateMealPlan(response: Result<JsValue>): (r: Result<JsValue>)
    ensures r.Ok? <==> response.Ok? && MealPlanShaped(response.value)
    ensures r.Ok? ==> r == response
    ensures response.Ok? && !Nullish(response.value) && r.Err? ==> r == Err(InvalidMealPlan)
    ensures response.Ok? && Nullish(response.value) ==> r == Err(PropertyOfNullish)
    ensures response.Err? ==> r == response
  {
    var r := Check(response, MealPlanFields, InvalidMealPlan);
    assert r.Ok? ==> Truthy(Prop(response.value, MealPlanFields[0]));
    assert r.Ok? ==> Truthy(Prop(response.value, MealPlanFields[1]));
    r
  }

  /** `getRecipeFromImage`: the parsed response, unchecked. */
  function GetRecipeFromImage(response: Result<JsValue>): Result<JsValue> {
    response
  }

  /** `generateShoppingList`: the parsed response, unchecked. */
  function GenerateShoppingList(response: Result<JsValue>): Result<JsValue> {
    response
  }

  /** A recipe with an empty name is refused, one with empty ingredient and
      instruction lists is accepted; the image-based variant accepts both. */
  lemma RecipeCheckIsTruthiness(name: string)
    ensures var recipe := Obj(map["recipeName" := Str(name), "ingredients" := Arr([]),
                                  "instructions" := Arr([])]);
      && (GenerateRecipe(Ok(recipe)).Ok? <==> name != "")
      && (name == "" ==> GenerateRecipe(Ok(recipe)) == Err(InvalidRecipe))
      && GetRecipeFromImage(Ok(recipe)) == Ok(recipe)
  {
    var recipe := Obj(map["recipeName" := Str(name), "ingredients" := Arr([]),
                          "instructions" := Arr([])]);
    assert Prop(recipe, "recipeName") == Str(name);
    assert Prop(recipe, "ingredients") == Arr([]);
    assert Prop(recipe, "instructions") == Arr([]);
  }

  /** The checked calls accept a subset of what the unchecked ones accept,
      and agree wherever both accept. */
  lemma UncheckedCallsAcceptMore(response: Result<JsValue>)
    ensures GenerateRecipe(response).Ok? ==> GetRecipeFromImage(response) == GenerateRecipe(response)
    ensures GenerateMealPlan(response).Ok? ==> GenerateShoppingList(response) == GenerateMealPlan(response)
    ensures GetRecipeFromImage(Ok(Null)).Ok? && GenerateRecipe(Ok(Null)).Err?
    ensures GenerateShoppingList(Ok(Obj(map[]))).Ok? && GenerateMealPlan(Ok(Obj(map[]))) == Err(InvalidMealPlan)
  {
    assert Prop(Obj(map[]), "title") == Undefined;
  }

  /** The meal-plan prompt's "Other requirements" line: `otherRequests || "None"`. */
  function OtherRequirementsText(otherRequests: string): (r: string)
    ensures otherRequests == "" ==> r == "None"
    ensures otherRequests != "" ==> r == otherRequests
  {
    Or(otherRequests, "None")
  }

  /** `generateImage`: the returned JPEG bytes wrapped in a data URL. */
  function GenerateImage(imageBytes: Result<string>): (r: Result<string>)
    ensures r.Ok? <==> imageBytes.Ok?
    ensures r.Err? ==> r == imageBytes
    ensures r.Ok? ==> r.value == "data:image/jpeg;base64," + imageBytes.value
  {
    match imageBytes
    case Err(m) => Err(m)
    case Ok(bytes) => Ok(DataUrl.Build("image/jpeg", bytes))
  }

  /** What the dish visualizer's parser reads back from a generated image. */
  lemma GeneratedImageParses(bytes: string)
    ensures DataUrl.Parse(GenerateImage(Ok(bytes)).value).Inline?
    ensures DataUrl.Parse(GenerateImage(Ok(bytes)).value).image.mimeType == "image/jpeg"
    ensures ',' !in bytes ==>
      DataUrl.Parse(GenerateImage(Ok(bytes)).value) == DataUrl.Inline(DataUrl.ImageData(Some(bytes), "image/jpeg"))
  {
    assert DataUrl.RoundTrippableMime("image/jpeg") by {
      assert "image/jpeg"[..6] == "image/";
    }
    DataUrl.ParseBuild("image/jpeg", bytes);
    if ',' !in bytes {
      DataUrl.RoundTrip("image/jpeg", bytes);
    }
  }

  /** `identifyIngredientsFromImage`: the model's text, trimmed. */
  function IdentifyIngredients(text: Result<string>): (r: Result<string>)
    ensures r.Ok? <==> text.Ok?
    ensures r.Err? ==> r == text
    ensures r.Ok? ==> r.value == Trim(text.value)
  {
    match text
    case Err(m) => Err(m)
    case Ok(t) => Ok(Trim(t))
  }

  /** The inline payload of a response part. */
  datatype InlineData = InlineData(data: string, mimeType: string)

  /** One part of the first candidate's content: inline image data, or not
      (a text part). */
  datatype Part = Part(inlineData: Option<InlineData>)

  /** Position `i` holds the first part carrying inline data. */
  predicate FirstInline(parts: seq<Part>, i: int) {
    && 0 <= i < |parts| && parts[i].inlineData.Some?
    && forall j :: 0 <= j < i ==> parts[j].inlineData.None?
  }

  /** The `for ... of` scan of `editImage`: the position of the first part
      with inline data, or `None` when no part has any. */
  function FirstInlineIndex(parts: seq<Part>): (r: Option<nat>)
    ensures r.None? <==> forall j :: 0 <= j < |parts| ==> parts[j].inlineData.None?
    ensures r.Some? ==> FirstInline(parts, r.value)
  {
    if |parts| == 0 then None
    else if parts[0].inlineData.Some? then Some(0)
    else match FirstInlineIndex(parts[1..])
      case None => None
      case Some(k) => Some(k + 1)
  }

  /** `editImage`, given the parts of the first response candidate: the
      data URL of the first part with inline data, or an error. */
  function EditImage(response: Result<seq<Part>>): (r: Result<string>)
    ensures response.Err? ==> r == Err(response.message)
    ensures response.Ok? && (forall j :: 0 <= j < |response.value| ==> response.value[j].inlineData.None?)
            ==> r == Err(NoImage)
    ensures r.Err? ==> response.Err? || forall j :: 0 <= j < |response.value| ==> response.value[j].inlineData.None?
    ensures r.Ok? ==>
      && response.Ok?
      && exists i :: && FirstInline(response.value, i)
                     && r.value == DataUrl.Build(response.value[i].inlineData.value.mimeType,
                                                 response.value[i].inlineData.value.data)
    ensures r.Ok? ==> StartsWith(r.value, "data:")
  {
    match response
    case Err(m) => Err(m)
    case Ok(parts) =>
      match FirstInlineIndex(parts)
      case None => Err(NoImage)
      case Some(i) =>
        var d := parts[i].inlineData.value;
        Ok(DataUrl.Build(d.mimeType, d.data))
  }
}

=== FILE: js_strings.dfy ===
/** The few JavaScript string operations the application relies on:
    `trim`, `startsWith` and single-character `split`, with the exact
    semantics of the ECMAScript built-ins. */
module JsStrings {
  import opened Wrappers

  /** The code points `String.prototype.trim` strips: the WhiteSpace and
      LineTerminator productions of ECMAScript (sections 12.2 and 12.3 of
      ECMA-262), including every space separator of category Zs. */
  predicate IsSpace(c: char) {
    || c == '\t' || c == '\n' || c == '\U{B}' || c == '\U{C}' || c == '\r'
    || c == ' ' || c == '\U{A0}' || c == '\U{1680}'
    || ('\U{2000}' <= c <= '\U{200A}')
    || c == '\U{2028}' || c == '\U{2029}' || c == '\U{202F}' || c == '\U{205F}'
    || c == '\U{3000}' || c == '\U{FEFF}'
  }

  /** True when every character is white space; `!s.trim()` is exactly this. */
  predicate IsBlank(s: string) {
    forall i :: 0 <= i < |s| ==> IsSpace(s[i])
  }

  /** The first position at or after `i` that is not white space. */
  function SkipSpaces(s: string, i: nat): (k: nat)
    requires i <= |s|
    ensures i <= k <= |s|
    ensures forall j :: i <= j < k ==> IsSpace(s[j])
    ensures k < |s| ==> !IsSpace(s[k])
    decreases |s| - i
  {
    if i < |s| && IsSpace(s[i]) then SkipSpaces(s, i + 1) else i
  }

  /** The end of `s[lo..hi]` once its trailing white space is removed. */
  function DropTrailingSpaces(s: string, lo: nat, hi: nat): (e: nat)
    requires lo <= hi <= |s|
    ensures lo <= e <= hi
    ensures forall j :: e <= j < hi ==> IsSpace(s[j])
    ensures e > lo ==> !IsSpace(s[e - 1])
    decreases hi
  {
    if hi > lo && IsSpace(s[hi - 1]) then DropTrailingSpaces(s, lo, hi - 1) else hi
  }

  /** `r` is `s` with blank text removed at both ends, the removed prefix
      being `s[..i]`. */
  predicate TrimsTo(s: string, r: string, i: int) {
    && 0 <= i <= |s| - |r|
    && r == s[i..i + |r|]
    && IsBlank(s[..i])
    && IsBlank(s[i + |r|..])
  }

  /** `String.prototype.trim`: the slice of `s` left after removing white
      space at both ends. It is empty exactly when `s` is blank. */
  function Trim(s: string): (r: string)
    ensures |r| <= |s|
    ensures exists i :: TrimsTo(s, r, i)
    ensures r == [] || (!IsSpace(r[0]) && !IsSpace(r[|r| - 1]))
    ensures r == [] <==> IsBlank(s)
  {
    var k := SkipSpaces(s, 0);
    var e := DropTrailingSpaces(s, k, |s|);
    TrimBounds(s, k, e);
    s[k..e]
  }

  /** What the two scans establish about the slice `s[k..e]` they delimit. */
  lemma TrimBounds(s: string, k: nat, e: nat)
    requires k == SkipSpaces(s, 0) && e == DropTrailingSpaces(s, k, |s|)
    ensures TrimsTo(s, s[k..e], k)
    ensures e > k ==> !IsSpace(s[k..e][0]) && !IsSpace(s[k..e][e - k - 1])
    ensures s[k..e] == [] <==> IsBlank(s)
  {
    assert IsBlank(s[..k]) by {
      forall j | 0 <= j < k ensures IsSpace(s[..k][j]) {
        assert s[..k][j] == s[j];
      }
    }
    assert IsBlank(s[e..]) by {
      forall j | 0 <= j < |s| - e ensures IsSpace(s[e..][j]) {
        assert s[e..][j] == s[e + j];
      }
    }
    assert k + |s[k..e]| == e;
    if e == k {
      assert forall j :: 0 <= j < |s| ==> IsSpace(s[j]);
    } else {
      assert s[k..e][0] == s[k];
      assert !IsSpace(s[k]);
    }
  }

  /** `s || fallback` on strings: only the empty string is falsy. */
  function Or(s: string, fallback: string): (r: string)
    ensures r == s || r == fallback
    ensures r == fallback <==> s == [] || s == fallback
  {
    if s == [] then fallback else s
  }

  /** `s.startsWith(p)`. */
  predicate StartsWith(s: string, p: string) {
    |p| <= |s| && s[..|p|] == p
  }

  /** `s.indexOf(c)` for a one-character search string, `None` for -1. */
  function IndexOf(s: string, c: char): (r: Option<nat>)
    ensures r.None? <==> c !in s
    ensures r.Some? ==> r.value < |s| && s[r.value] == c && c !in s[..r.value]
  {
    if |s| == 0 then None
    else if s[0] == c then Some(0)
    else
      var rest := IndexOf(s[1..], c);
      if rest.None? then None
      else
        assert s[..rest.value + 1] == [s[0]] + s[1..][..rest.value];
        Some(rest.value + 1)
  }

  /** `s.split(sep)` for a one-character separator: the maximal pieces
      between separators, left to right; never empty. */
  function Split(s: string, sep: char): (parts: seq<string>)
    ensures |parts| >= 1
    ensures forall k :: 0 <= k < |parts| ==> sep !in parts[k]
    decreases |s|
  {
    match IndexOf(s, sep)
    case None => [s]
    case Some(i) => [s[..i]] + Split(s[i + 1..], sep)
  }

  /** `parts.join(sep)`, the inverse of `Split`. */
  function Join(parts: seq<string>, sep: char): string
    requires |parts| >= 1
  {
    if |parts| == 1 then parts[0] else parts[0] + [sep] + Join(parts[1..], sep)
  }

  /** `parts[k]` in JavaScript: `undefined` beyond the end. */
  function At(parts: seq<string>, k: nat): Option<string> {
    if k < |parts| then Some(parts[k]) else None
  }

  /** A leading separator-free piece splits off as the first part. */
  lemma SplitFirstPiece(head: string, sep: char, rest: string)
    requires sep !in head
    ensures Split(head + [sep] + rest, sep) == [head] + Split(rest, sep)
  {
    var s := head + [sep] + rest;
    assert s[|head|] == sep;
    assert s[..|head|] == head;
    assert s[|head| + 1..] == rest;
  }

  /** Splitting undoes joining separator-free parts. */
  lemma {:induction false} SplitJoin(parts: seq<string>, sep: char)
    requires |parts| >= 1
    requires forall k :: 0 <= k < |parts| ==> sep !in parts[k]
    ensures Split(Join(parts, sep), sep) == parts
    decreases |parts|
  {
    if |parts| > 1 {
      SplitJoin(parts[1..], sep);
      SplitFirstPiece(parts[0], sep, Join(parts[1..], sep));
    } else {
      assert IndexOf(parts[0], sep).None?;
    }
  }

  /** Joining undoes splitting. */
  lemma {:induction false} JoinSplit(s: string, sep: char)
    ensures Join(Split(s, sep), sep) == s
    decreases |s|
  {
    match IndexOf(s, sep)
    case None =>
    case Some(i) =>
      var p := Split(s, sep);
      var tail := Split(s[i + 1..], sep);
      assert p == [s[..i]] + tail;
      assert p[1..] == tail;
      JoinSplit(s[i + 1..], sep);
      assert Join(p, sep) == s[..i] + [sep] + Join(tail, sep);
      assert s == s[..i] + [sep] + s[i + 1..];
  }

  /** Joining two lists of parts joins their two joins. */
  lemma {:induction false} JoinAppend(p: seq<string>, q: seq<string>, sep: char)
    requires |p| >= 1 && |q| >= 1
    ensures Join(p + q, sep) == Join(p, sep) + [sep] + Join(q, sep)
    decreases |p|
  {
    if |p| > 1 {
      assert (p + q)[1..] == p[1..] + q;
      JoinAppend(p[1..], q, sep);
    } else {
      assert (p + q)[1..] == q;
    }
  }

  /** Joining two strings with a separator concatenates their pieces. */
  lemma SplitAppend(a: string, sep: char, b: string)
    ensures Split(a + [sep] + b, sep) == Split(a, sep) + Split(b, sep)
  {
    var pa, pb := Split(a, sep), Split(b, sep);
    JoinSplit(a, sep);
    JoinSplit(b, sep);
    JoinAppend(pa, pb, sep);
    SplitJoin(pa + pb, sep);
  }
}

=== FILE: meal_planner.dfy ===
/** The two handlers of components/MealPlanner.tsx: generating a meal plan
    and, from it, a shopping list. */
module MealPlanner {
  import opened Wrappers
  import opened JsStrings
  import opened GeminiService

  /** What `generateMealPlan` is asked for. */
  datatype MealPlanRequest = MealPlanRequest(duration: string, dietaryNeeds: string, otherRequests: string)

  /** The view's state: the three form fields, the current plan and
      shopping list, the two busy flags and the error banner. */
  datatype PlannerView = PlannerView(
    duration: string, diet: string, requests: string,
    plan: Option<JsValue>, list: Option<JsValue>,
    loading: bool, listLoading: bool, error: Option<string>)

  const Initial: PlannerView := PlannerView("3 days", "none", "", None, None, false, false, None)

  const PlanFailed := "An error occurred. Please review your selections and try again."
  const ListFailed := "Could not generate the shopping list. Please try again."

  /** The request an accepted submit sends: the other requests trimmed, the
      rest as selected. */
  function PlanRequest(v: PlannerView): (r: Option<MealPlanRequest>)
    ensures r.Some? <==> !v.loading
    ensures r.Some? ==> r.value == MealPlanRequest(v.duration, v.diet, Trim(v.requests))
  {
    if v.loading then None else Some(MealPlanRequest(v.duration, v.diet, Trim(v.requests)))
  }

  /** What the prompt's "Other requirements" line shows for a submitted
      request: "None" when the text box held only white space, and the
      trimmed text otherwise. */
  lemma PromptRequirements(v: PlannerView)
    requires !v.loading
    ensures IsBlank(v.requests) ==> OtherRequirementsText(PlanRequest(v).value.otherRequests) == "None"
    ensures !IsBlank(v.requests) ==>
      OtherRequirementsText(PlanRequest(v).value.otherRequests) == Trim(v.requests)
      && Trim(v.requests) != ""
  {
  }

  /** The state while the plan request is in flight. */
  function BeginPlan(v: PlannerView): PlannerView {
    v.(loading := true, error := None, plan := None, list := None)
  }

  /** `handleSubmit` as one atomic step, given the parsed model response. */
  function SubmitPlan(v: PlannerView, response: Result<JsValue>): (r: PlannerView)
    ensures v.loading ==> r == v
    ensures !v.loading ==> !r.loading && r.list.None?
    ensures !v.loading ==> (r.plan.Some? <==> response.Ok? && MealPlanShaped(response.value))
    ensures !v.loading && r.plan.Some? ==> r.plan.value == response.value && r.error.None?
    ensures !v.loading && r.plan.None? ==> r.error == Some(PlanFailed)
    ensures (r.duration, r.diet, r.requests, r.listLoading) == (v.duration, v.diet, v.requests, v.listLoading)
  {
    if v.loading then v
    else
      var b := BeginPlan(v);
      var settled :=
        match GenerateMealPlan(response)
        case Ok(plan) => b.(plan := Some(plan))
        case Err(_) => b.(error := Some(PlanFailed));
      settled.(loading := false)
  }

  /** The plan a shopping-list request is built from, if the guard lets it
      through: only with a plan and no list request in flight. */
  function ListRequest(v: PlannerView): (r: Option<JsValue>)
    ensures r.Some? <==> v.plan.Some? && !v.listLoading
    ensures r.Some? ==> r == v.plan
  {
    if v.plan.None? || v.listLoading then None else v.plan
  }

  /** `handleGenerateShoppingList` as one atomic step, given the parsed
      model response. The plan survives either outcome. */
  function SubmitList(v: PlannerView, response: Result<JsValue>): (r: PlannerView)
    ensures ListRequest(v).None? ==> r == v
    ensures ListRequest(v).Some? ==>
      && !r.listLoading
      && r.plan == v.plan
      && (response.Ok? ==> r.list == Some(response.value) && r.error.None?)
      && (response.Err? ==> r.list == v.list && r.error == Some(ListFailed))
    ensures (r.duration, r.diet, r.requests, r.loading) == (v.duration, v.diet, v.requests, v.loading)
  {
    if v.plan.None? || v.listLoading then v
    else
      var b := v.(listLoading := true, error := None);
      var settled :=
        match GenerateShoppingList(response)
        case Ok(list) => b.(list := Some(list))
        case Err(_) => b.(error := Some(ListFailed));
      settled.(listLoading := false)
  }

  /** The freshly mounted view can ask for a plan with its default
      selections at once, but has no plan to build a shopping list from. */
  lemma InitialIdle(response: Result<JsValue>)
    ensures PlanRequest(Initial) == Some(MealPlanRequest("3 days", "none", ""))
    ensures ListRequest(Initial).None? && SubmitList(Initial, response) == Initial
  {
  }

  /** A new plan request starts from a clean slate and a failed one leaves no
      plan, so no shopping list can be asked for until a plan arrives. */
  lemma FailedPlanBlocksList(v: PlannerView, response: Result<JsValue>, listResponse: Result<JsValue>)
    requires !v.loading
    ensures BeginPlan(v).plan.None? && BeginPlan(v).list.None? && BeginPlan(v).error.None?
    ensures !GenerateMealPlan(response).Ok? ==>
      SubmitList(SubmitPlan(v, response), listResponse) == SubmitPlan(v, response)
  {
  }
}

=== FILE: profile_page.dfy ===
/** The submit handler and Save-button state of components/ProfilePage.tsx
    over the user directory of module Auth. */
module ProfilePage {
  import opened Wrappers
  import opened JsStrings
  import Auth

  /** The name field, loading flag and the two banners. */
  datatype ProfileForm = ProfileForm(name: string, loading: bool, error: string, success: string)

  const Updated := "Profile updated successfully!"
  const UpdateFailed := "Failed to update profile."

  /** The form as first rendered: `currentUser?.name || ""`. */
  function InitialForm(current: Option<Auth.User>): (r: ProfileForm)
    ensures current.Some? ==> r.name == current.value.name
    ensures current.None? ==> r.name == ""
    ensures !r.loading && r.error == "" && r.success == ""
  {
    ProfileForm(if current.Some? then Or(current.value.name, "") else "", false, "", "")
  }

  /** `name === currentUser?.name`: never true while nobody is logged in. */
  predicate Unchanged(f: ProfileForm, current: Option<Auth.User>) {
    current.Some? && f.name == current.value.name
  }

  /** Save is disabled while saving or when the name is unchanged. */
  predicate SaveDisabled(f: ProfileForm, current: Auth.User) {
    f.loading || f.name == current.name
  }

  /** The `try`/`catch`/`finally` after `updateProfile` settles. */
  function Settle(f: ProfileForm, rejection: Option<string>): (r: ProfileForm)
    ensures !r.loading && r.name == f.name
    ensures rejection.None? ==> r.success == Updated && r.error == f.error
    ensures rejection.Some? ==> r.success == f.success && r.error != ""
    ensures rejection.Some? && rejection.value != "" ==> r.error == rejection.value
    ensures rejection == Some("") ==> r.error == UpdateFailed
  {
    match rejection
    case None => f.(success := Updated, loading := false)
    case Some(m) => f.(error := Or(m, UpdateFailed), loading := false)
  }

  /** `handleSubmit` as one atomic step over the directory. */
  function Submit(f: ProfileForm, auth: Auth.AuthState): (r: (ProfileForm, Auth.AuthState))
    ensures Unchanged(f, auth.current) ==> r == (f, auth)
    ensures !Unchanged(f, auth.current) ==>
      var step := Auth.UpdateProfile(auth, f.name);
      && r.1 == step.state
      && !r.0.loading && r.0.name == f.name
      && (step.rejection.None? ==> r.0.success == Updated && r.0.error == "")
      && (step.rejection.Some? ==> r.0.success == "" && r.0.error == step.rejection.value)
  {
    if Unchanged(f, auth.current) then (f, auth)
    else
      var cleared := f.(error := "", success := "", loading := true);
      var step := Auth.UpdateProfile(auth, f.name);
      (Settle(cleared, step.rejection), step.state)
  }

  /** Submitting while logged out shows the directory's refusal. */
  lemma LoggedOutSubmitRejected(f: ProfileForm, auth: Auth.AuthState)
    requires auth.current.None?
    ensures Submit(f, auth).0.error == Auth.NotLoggedIn && Submit(f, auth).1 == auth
  {
  }

  /** After a successful save the field equals the current user's new name,
      so Save is disabled again until the name is edited. */
  lemma SavedNameDisablesSave(f: ProfileForm, auth: Auth.AuthState)
    requires !Unchanged(f, auth.current)
    requires Auth.UpdateProfile(auth, f.name).rejection.None?
    ensures Submit(f, auth).1.current.Some?
    ensures SaveDisabled(Submit(f, auth).0, Submit(f, auth).1.current.value)
    ensures Unchanged(Submit(f, auth).0, Submit(f, auth).1.current)
  {
  }
}

=== FILE: recipe_generator.dfy ===
/** The handlers of components/RecipeGenerator.tsx: ingredient recognition
    from a photo, recipe generation, and the chat panel's visibility. */
module RecipeGenerator {
  import opened Wrappers
  import opened JsStrings
  import opened GeminiService

  /** What `generateRecipe` is asked for. */
  datatype RecipeRequest = RecipeRequest(ingredients: string, mealType: string, cuisine: string, dietary: string)

  /** The view's state: the four form fields, the current recipe, the two
      busy flags, the error banner and whether the chat panel is open. */
  datatype GeneratorView = GeneratorView(
    ingredients: string, mealType: string, cuisine: string, dietary: string,
    recipe: Option<JsValue>, loading: bool, analyzing: bool, error: Option<string>, chatOpen: bool)

  const Initial: GeneratorView := GeneratorView("", "any", "any", "none", None, false, false, None, false)

  const AnalyzeFailed := "Could not analyze the image. Please try again."
  const GenerateFailed := "An error occurred. Please check your ingredients and try again. The AI chef might be busy."

  /** Adding recognised ingredients to the field: after a comma and a space
      when the field already holds text, on their own otherwise. */
  function MergeIngredients(prev: string, identified: string): string {
    if prev != "" then prev + ", " + identified else identified
  }

  /** The merge keeps the old text as a prefix and the new text as a
      suffix, and the comma-separated entries of both, in order. */
  lemma MergeKeepsBoth(prev: string, identified: string)
    ensures var r := MergeIngredients(prev, identified);
      && r[..|prev|] == prev
      && r[|r| - |identified|..] == identified
      && |r| == |prev| + |identified| + (if prev == "" then 0 else 2)
      && (prev != "" ==> Split(r, ',') == Split(prev, ',') + Split(" " + identified, ','))
      && (prev == "" ==> Split(r, ',') == Split(identified, ','))
  {
    if prev != "" {
      assert MergeIngredients(prev, identified) == prev + [','] + (" " + identified);
      SplitAppend(prev, ',', " " + identified);
    }
  }

  /** `handleAnalyzeImage`: nothing without a chosen file; otherwise the
      service's trimmed text is merged into the field, or, on failure, the
      field is kept and the error set. */
  function AnalyzeImage(v: GeneratorView, fileChosen: bool, modelText: Result<string>): (r: GeneratorView)
    ensures !fileChosen ==> r == v
    ensures fileChosen && modelText.Ok? ==>
      r == v.(ingredients := MergeIngredients(v.ingredients, Trim(modelText.value)), error := None,
             analyzing := false)
    ensures fileChosen && modelText.Err? ==> r == v.(error := Some(AnalyzeFailed), analyzing := false)
  {
    if !fileChosen then v
    else
      var busy := v.(analyzing := true, error := None);
      var settled :=
        match IdentifyIngredients(modelText)
        case Ok(identified) => busy.(ingredients := MergeIngredients(busy.ingredients, identified))
        case Err(_) => busy.(error := Some(AnalyzeFailed));
      settled.(analyzing := false)
  }

  /** The guard of `handleSubmit`: `ingredients.trim()` is non-empty and no
      request is loading. */
  predicate Accepts(v: GeneratorView) {
    !IsBlank(v.ingredients) && !v.loading
  }

  /** The request an accepted submit sends: trimmed ingredients, the other
      three fields as they are. */
  function SubmitRequest(v: GeneratorView): (r: Option<RecipeRequest>)
    ensures r.Some? <==> !IsBlank(v.ingredients) && !v.loading
    ensures r.Some? ==> r.value == RecipeRequest(Trim(v.ingredients), v.mealType, v.cuisine, v.dietary)
  {
    if Accepts(v) then Some(RecipeRequest(Trim(v.ingredients), v.mealType, v.cuisine, v.dietary)) else None
  }

  /** The state while the request is in flight: loading, and the previous
      recipe, error and chat panel all cleared. */
  function Begin(v: GeneratorView): GeneratorView {
    v.(loading := true, error := None, recipe := None, chatOpen := false)
  }

  /** `handleSubmit` as one atomic step, given the parsed model response. */
  function Submit(v: GeneratorView, response: Result<JsValue>): (r: GeneratorView)
    ensures !Accepts(v) ==> r == v
    ensures Accepts(v) ==> !r.loading && !r.chatOpen
    ensures Accepts(v) ==> (r.recipe.Some? <==> response.Ok? && RecipeShaped(response.value))
    ensures Accepts(v) ==> (r.error.Some? <==> r.recipe.None?)
    ensures Accepts(v) && r.error.Some? ==> r.error.value == GenerateFailed
    ensures Accepts(v) && r.recipe.Some? ==> r.recipe.value == response.value
    ensures r.(recipe := v.recipe, loading := v.loading, error := v.error, chatOpen := v.chatOpen) == v
  {
    if !Accepts(v) then v
    else
      var b := Begin(v);
      var settled :=
        match GenerateRecipe(response)
        case Ok(recipe) => b.(recipe := Some(recipe))
        case Err(_) => b.(error := Some(GenerateFailed));
      settled.(loading := false)
  }

  /** The recipe card's "ask the chef" button. */
  function AskChef(v: GeneratorView): GeneratorView {
    v.(chatOpen := true)
  }

  /** The assistant panel is rendered only for an existing recipe with the
      chat open. */
  predicate ChatShown(v: GeneratorView) {
    v.recipe.Some? && v.chatOpen
  }

  /** The freshly mounted view has empty ingredients, so a submit does
      nothing, and there is no recipe, so the assistant cannot be shown. */
  lemma InitialIdle(response: Result<JsValue>)
    ensures Submit(Initial, response) == Initial
    ensures SubmitRequest(Initial).None?
    ensures !ChatShown(Initial) && !ChatShown(AskChef(Initial))
  {
  }

  /** A new recipe request always closes the assistant; it reopens only
      through the button, and only once a recipe is there. */
  lemma SubmitClosesChat(v: GeneratorView, response: Result<JsValue>)
    requires Accepts(v)
    ensures !ChatShown(Begin(v))
    ensures !ChatShown(Submit(v, response))
    ensures ChatShown(AskChef(Submit(v, response))) <==> GenerateRecipe(response).Ok?
  {
  }
}

=== FILE: signup_page.dfy ===
/** The submit handler of components/SignupPage.tsx over the user
    directory of module Auth. */
module SignupPage {
  import opened Wrappers
  import opened JsStrings
  import Auth

  /** The form's fields, its error banner and its loading flag. */
  datatype SignupForm = SignupForm(name: string, email: string, password: string, error: string, loading: bool)

  const MinPasswordLength: nat := 6
  const PasswordTooShort := "Password must be at least 6 characters long."
  const SignupFailed := "Failed to create an account."

  /** The synchronous part of `handleSubmit`: either the length gate stops
      it with an error, or the error is cleared and loading set. */
  function Begin(f: SignupForm): SignupForm {
    if |f.password| < MinPasswordLength then f.(error := PasswordTooShort)
    else f.(error := "", loading := true)
  }

  /** The `catch`/`finally` after `signup` settles: a rejection shows its
      message, or the fallback when the message is empty. */
  function Settle(f: SignupForm, rejection: Option<string>): (r: SignupForm)
    ensures !r.loading
    ensures rejection.None? ==> r.error == f.error
    ensures rejection.Some? ==> r.error != ""
    ensures rejection.Some? && rejection.value != "" ==> r.error == rejection.value
    ensures rejection == Some("") ==> r.error == SignupFailed
    ensures r.(error := f.error, loading := f.loading) == f
  {
    match rejection
    case None => f.(loading := false)
    case Some(m) => f.(error := Or(m, SignupFailed), loading := false)
  }

  /** `handleSubmit` as one atomic step; `newId` is the id `signup` would
      stamp on a new account. Returns the form and the directory after it. */
  function Submit(f: SignupForm, auth: Auth.AuthState, newId: string): (r: (SignupForm, Auth.AuthState))
    ensures |f.password| < MinPasswordLength ==> r == (f.(error := PasswordTooShort), auth)
    ensures |f.password| >= MinPasswordLength ==>
      var step := Auth.Signup(auth, f.name, f.email, f.password, newId);
      && r.1 == step.state
      && !r.0.loading
      && (r.0.error == "" <==> step.rejection.None?)
      && (step.rejection.Some? ==> r.0.error == Auth.EmailTaken)
    ensures r.0.error == PasswordTooShort <==> |f.password| < MinPasswordLength
    ensures (r.0.name, r.0.email, r.0.password) == (f.name, f.email, f.password)
  {
    var b := Begin(f);
    if |f.password| < MinPasswordLength then (b, auth)
    else
      var step := Auth.Signup(auth, f.name, f.email, f.password, newId);
      (Settle(b, step.rejection), step.state)
  }

  /** The gate is exactly "at least six characters": a six-character
      password reaches `signup`, a five-character one does not. */
  lemma GateBoundary(f: SignupForm, auth: Auth.AuthState, newId: string)
    requires !Auth.HasEmail(auth.users, f.email)
    ensures |f.password| == 6 ==> Submit(f, auth, newId).1.current.Some?
    ensures |f.password| == 5 ==> Submit(f, auth, newId).1 == auth
  {
  }
}

=== FILE: wrappers.dfy ===
/** Option and Result shapes shared by every module of the model. */
module Wrappers {

  /** A value that may be absent: JavaScript's `undefined`/`null` versus a value. */
  datatype Option<+T> = None | Some(value: T)

  /** The settled state of a promise or of a `try` block: a value, or a
      rejection carrying the thrown `Error`'s message. */
  datatype Result<+T> = Ok(value: T) | Err(message: string)
}
